=== FILE: README.md ===
# Book page-turning model

A Dafny model of the interactive book in `book.js`: the page cursor and its target, the keyboard and pointer handlers that move the target, the per-frame update that eases the cursor and re-derives each page's open state, and the per-joint solver that bends and folds a page while it turns.

All numbers are Dafny `real`s. The runtime's `Math.sin`, `Math.cos`, `Math.exp` and `Math.PI` are fields of a `Trig` record that every caller passes in, so every proof holds for any values of them. The wall clock (`Date.now()`) and the frame time (`clock.getDelta()`) enter as a `Frame(now, delta)`. The raycast enters as an abstract nearest `Hit`.

Modules, leaves first:

- `Config` (config.dfy): the page list and the tuning constants.
- `Numerics` (numerics.dfy): `Lerp`, `DegToRad`, `Sign` and the exponential damping `DampAngle`.
- `BoneChain` (bone_chain.dfy): the joint chain of a page, kept as an arena in which each joint names its parent's index.
- `Cursor` (cursor.dfy): clamping of the target, one easing step of the cursor, and convergence over many frames.
- `Page` (page.dfy): page state, tab visibility, flip detection, per-joint targets and damping.
- `Book` (book.dfy): the book state, `SetPage`, the arrow keys, hover, click, the frame `Tick`, and the invariants that hold over any event sequence.

Field names: the source's `opened` and `lastOpened` are `isOpened` and `wasOpened` here, because `opened` is a Dafny keyword. Joint 0 of a page stands for the rotation of the page's whole group. The source writes joint 0's rotation to the group (book.js:295), and its `bones[0]` never rotates.

## Notes on the code

- The book counts as closed only when the raw cursor is exactly 0 or the page count. The test reads the cursor before this frame's step.
- A closed page's joint 0 is damped toward ±π/2. It is never set to it directly.
- Open pages splay by 0.2° per page number, and the turn window is 200 ms.
- Nothing validates a degenerate chain or an empty book. The chain length and the page list are constants.
- The `BoneChain` arena describes the chain's structure. Each page's rotations are kept in `PageState.joints`, with one entry per joint of that chain (`Page.NewPage`).

## Model

| member | source | states |
|---|---|---|
| Numerics.DegToRad | book.js:35-37 | the radians times 180 equal the degrees times π |
| Numerics.Lerp | book.js:31-33 | interpolation by 0 gives the start and by 1 gives the end; the remaining distance scales by 1 − f; for f in [0,1] the result lies between the endpoints |
| Numerics.Sign | book.js:321 | the sign is −1, 0 or 1, is 0 exactly at 0, and multiplied by x gives \|x\| |
| Numerics.DampAngle | book.js:39-43 | an angle already at its target is unchanged; otherwise damping is a lerp by 1 − exp(−factor·delta·60) |
| Numerics.DampCloses | book.js:39-43 | if exp of a negative number lies strictly inside (0,1), and factor and delta are positive, an angle off its target ends strictly closer to it |
| Numerics.SlowerFactorLags | book.js:39-43 | with a monotone exp and non-negative delta, a smaller factor never removes a larger share of the distance than a larger one |
| Numerics.DampNoOvershoot | book.js:39-43 | if exp of a non-positive number lies in (0,1], and factor and delta are non-negative, the damped angle lies between the current angle and the target |
| Cursor.ClampPage | book.js:534-536 | the stored target is in [0, PageCount]; an in-range request is kept; requests below 0 give 0 and requests above PageCount give PageCount |
| Cursor.ClampIsNearest | book.js:534-536 | the clamped page is the in-range page nearest to the request |
| Cursor.Step | book.js:517-525 | a cursor on its target stays there; the new cursor lies between the old cursor and the target; when it does not land on the target, the gap is multiplied by 0.95 if the old gap exceeded 2 and by 0.97 otherwise; it lands exactly on the target iff it was already there or the shrunk gap is below 0.01; in every case the new gap is at most 0.97 of the old one |
| Cursor.StepLowersMeasure | book.js:517-525 | each frame off target lowers a natural-number measure, because an unsnapped frame removes at least 0.0003 of the gap |
| Cursor.EaseAtTarget | book.js:517 | a cursor on its target stays there for any number of frames |
| Cursor.EaseSettles | book.js:517-525 | with the target held, the cursor is exactly on the target after FramesToSettle frames and at every later frame |
| Cursor.EaseNotSettledEarly | book.js:517-525 | the cursor is not on the target at any earlier frame |
| Cursor.EaseStaysBetween | book.js:517-525 | every cursor of the run lies between the start and the target |
| Cursor.EaseInRange | book.js:517-525 | a cursor starting in [0, PageCount] with an in-range target stays in [0, PageCount] |
| Cursor.EaseContracts | book.js:517-525 | after n frames the gap is at most the initial gap shrunk n times by 0.97 |
| Cursor.SettleBound | book.js:517-525 | the number of frames to settle is at most the measure of the initial gap |
| Cursor.SettleBoundInBook | book.js:517-525 | between any in-range cursor and any in-range target, the cursor settles within 33334 frames |
| BoneChain.Chain | book.js:219-231 | the chain has segments+1 joints, joint 0 is the root, and every parent link points to an earlier joint |
| BoneChain.ChainDepth | book.js:219-231 | joint i is exactly i parent links from the root, so the chain is linear |
| BoneChain.ChainReach | book.js:219-231 | joint i lies i segment widths from the spine |
| BoneChain.PageChainSpansPage | book.js:10-14 | the page's chain has BoneCount joints, and its last joint lies exactly at the page width |
| Page.NewPage | book.js:205-243 | a new page carries its number and labels, is neither open nor highlighted, was last flipped at time 0, shows its tab, and has one unrotated joint per joint of the page's bone chain |
| Page.TurnFraction | book.js:285 | the elapsed fraction of the turn window is at most 1, equals 1 once 200 ms have passed, is non-negative when the clock has not gone back, and inside the window equals the elapsed time over 200 ms |
| Page.FlatRotation | book.js:288 | the flat rotation is a quarter turn (\|r\| = \|π\|/2), negative exactly when the page is open |
| Page.TurnStart | book.js:280-283 | the turn start is kept while the open flag is unchanged and reset to now when it flipped |
| Page.TurnProgress | book.js:285-286 | the progress is sin(0) at the moment of a flip and sin(π) once the 200 ms window has passed |
| Page.TargetRotation | book.js:288-291 | in a closed book the target is exactly the flat rotation ±π/2; in an open book it is the flat rotation plus number·0.2° in radians; when π > 0 the splay never lowers it; for fewer than 450 pages it is nonzero and negative exactly when the page is open |
| Page.OpenPagesSplay | book.js:289-291 | in an open book a higher page number gets a strictly larger target rotation, so stacked open pages splay apart |
| Page.InsideCurve | book.js:312 | the inside curve is zero from joint 8 on |
| Page.OutsideCurve | book.js:313 | the outside curve is zero below joint 8 |
| Page.TurningCurve | book.js:314 | the turning curve vanishes at zero turn progress |
| Page.BendProfile | book.js:316-319 | below joint 8 the bend weights only the inside and turning curves; from joint 8 on, only the turning and outside curves |
| Page.FanOutBelowQuarterTurn | book.js:290 | the splay of an open page is at least 0 and below π/2 when there are fewer than 450 pages |
| Page.FoldProfile | book.js:329-331 | joints up to index 8 have no fold intensity |
| Page.JointTargets | book.js:297-333 | in a closed book, or below 0.05 turn progress: joint 0 targets exactly ±π/2, every other joint targets 0, and no joint folds; a nonzero fold target occurs only for joints past index 8 while the book is open and turning; mid-turn, the bend is the target rotation times the weighted inside, outside and turning curves, and the fold is sign(θ)·2° times the fold profile |
| Page.DampJoint | book.js:325-340 | a joint already at its target is unchanged; what remains of the bend's distance to its target is the old distance times the decay of factor 0.8 over delta, and what remains of the fold's is the old distance times the decay of factor 0.6 |
| Page.UpdatePage | book.js:273-341 | the tab is visible iff the book is open, the page is not open and its number is positive; afterwards the remembered open flag equals the open flag; the turn start is reset to now only when the flag flipped; nothing else but the tab, the flip state and the joints changes |
| Page.JointsCloseGap | book.js:325-340 | if exp of a negative number lies strictly inside (0,1) and delta is positive, every joint whose bend (or fold) is off this frame's target ends strictly closer to it on that axis |
| Page.FoldLagsBend | book.js:4-5 | with a monotone exp and non-negative delta, the fold (factor 0.6) closes no larger share of its distance in a frame than the bend (factor 0.8) |
| Page.JointsApproachTargets | book.js:325-340 | with decaying exp and non-negative delta, each joint's bend and fold end between their old values and this frame's targets |
| Page.ClosedPageStaysRigid | book.js:300-304 | the closed-book pose is a fixed point: a page already exactly flat in a closed book keeps the same joint rotations |
| Book.BookClosed | book.js:505 | when the book is closed and the open flags follow the cursor, every page lies on the same side |
| Book.FirstOpeningFrameStillClosed | book.js:505-531 | on the first frame after a closed book at cursor 0 is sent forward, the cursor has moved and page 0 is open, but the frame still runs as closed: no tab is visible, and every joint is damped toward the closed pose, with joint 0 heading flat to the page's new side and the other joints toward no bend and no fold |
| Book.NewBook | book.js:364-373 | the new book is valid, has no highlighted page, has every page closed, and has cursor and target at 0 |
| Book.SetPage | book.js:534-536 | the target becomes the clamped request; the cursor and pages are untouched |
| Book.PressKey | book.js:387-397 | ArrowRight raises an in-range target by one, and at the last page keeps it; ArrowLeft lowers it by one, and at 0 keeps it; an arrow key moves an in-range target by at most 1 and leaves it in range; other keys change nothing |
| Book.ArrowKeysUndoEachOther | book.js:387-397 | away from the ends, ArrowRight then ArrowLeft, or ArrowLeft then ArrowRight, gives back the same book |
| Book.Hover | book.js:421-447 | afterwards a page is highlighted iff the hit is its tab or its body; so at most one page is highlighted; nothing but the highlight flags changes |
| Book.Click | book.js:468-500 | a tab hit for page p sets the target to clamp(p+1); a body hit on page n sets it to clamp(n) if the page is open and clamp(n+1) otherwise; no hit, or a hit on an unknown object, changes nothing |
| Book.Tick | book.js:503-532 | the target is kept; the cursor takes one easing step; afterwards every page is open iff the new cursor exceeds its index; each tab is visible iff the pre-step cursor was not exactly 0 or PageCount, the page is not open, and its number is positive; highlights, numbers and chain lengths are kept; validity is preserved |
| Book.SettledClosedBookIsStill | book.js:503-531 | the closed-book fixed point: if the cursor is exactly on 0 or PageCount and on its target, the open flags follow the cursor, and every page lies exactly flat, then a frame leaves every joint unchanged |
| Book.RunEases | book.js:503-532 | a run of frames moves the cursor exactly as n easing steps do, keeps the target and validity, and leaves every open flag following the cursor |
| Book.RunSettles | book.js:517-531 | after enough frames the cursor is exactly on the target, the pages before it are open and the rest are closed |
| Book.ClickBodyFlipsPage | book.js:485-491 | clicking a page's body and letting the book settle turns an open page back and turns a closed page over |
| Book.ClickTabOpensThrough | book.js:471-474 | clicking the tab of page n and letting the book settle leaves pages 0..n open and the later pages closed |
| Book.OpenNewBookAtThree | book.js:503-536 | a new book sent to page 3 settles with the cursor exactly 3, pages 0–2 open and pages 3–9 closed |
| Book.TickJoints | book.js:503-532 | in a frame, every joint of every page takes one damping step toward the target computed from the page's new open flag, its turn start after flip detection, and the closed flag read before the cursor moved |
| Book.TickDrivesJoints | book.js:503-532 | if exp of a negative number lies strictly inside (0,1) and the frame has positive length, every joint of every page that is off this frame's target ends strictly closer to it on that axis |
| Book.EventsKeepOpened | book.js:382-536 | any sequence of key, hover, click and frame events keeps every page open exactly when the cursor lies past its index |
| Book.EventsKeepInvariants | book.js:382-536 | any sequence of key, hover, click and frame events keeps the book valid and keeps at most one page highlighted |
| Book.NewBookKeepsInvariants | book.js:346-380 | from a new book, any event sequence keeps the target and the cursor in [0, PageCount], at most one page highlighted, and every page open exactly when the cursor lies past its index |

## Left out

- Page geometry, skin indices and weights, materials and the tab meshes (book.js:46-201): library calls with no behaviour of their own to state.
- Texture loading and its beige fallback (book.js:88-121): asynchronous I/O that never touches the cursor or the page state.
- Emissive glow of pages and tabs (book.js:253-271) and the book group's x-position lerp (book.js:507-514): cosmetic easing read by nothing else.
- Crosshair colour and scale feedback, its `setTimeout` resets, `preventDefault` and `stopPropagation` (book.js:391-395, book.js:434-446, book.js:476-498): DOM feedback only.
- Ray construction and mesh intersection (book.js:401-419, book.js:450-466): the nearest hit is an input.
- The values of sin, cos, exp and π, and the curve shapes they produce: `Trig` leaves them uninterpreted.
- IEEE floating-point rounding: the cursor, angles and thresholds are exact reals. The exact comparisons `currentPage === 0` and `=== bookPages.length` are modelled as exact real equality.
- The two separate `Date.now()` reads in one page update (book.js:281, book.js:285): the model reads the clock once per frame.
- main.js (model loading, the animation loop and the call to `setPage(0)`), camera.js and lighting.js: scene configuration with no algorithmic content.
- Cursor.EaseContracts: uses 0.97 per frame as the contraction factor, including frames that use the faster 0.95 step. Cursor.Step states the exact factor for a single frame.
- Book.SetPage: takes an integer. The source's `Math.max`/`Math.min` would also accept a fractional or NaN argument, but none of its callers passes one.

=== FILE: bone_chain.dfy ===
/** The bone chain of one page: `segments + 1` joints, each attached to its
    predecessor, stored as an arena indexed by position with a parent link. */
module BoneChain {
  import opened Config

  datatype Parent = Root | ParentBone(index: nat)

  /** A joint: its parent and its offset from the parent along the page width. */
  datatype Bone = Bone(parent: Parent, offsetX: real)

  /** Every parent link points strictly backwards, so the arena is a forest
      rooted at the `Root` joints and every walk to a root is finite. */
  predicate Chained(bones: seq<Bone>) {
    forall i :: 0 <= i < |bones| && bones[i].parent.ParentBone? ==> bones[i].parent.index < i
  }

  /** The page's joints: joint 0 at the spine with no offset, each later joint
      one segment further out and attached to the joint before it. */
  function Chain(segments: nat, segmentWidth: real): (bones: seq<Bone>)
    ensures |bones| == segments + 1
    ensures Chained(bones)
    ensures bones[0].parent == Root
  {
    seq(segments + 1, i requires 0 <= i => if i == 0 then Bone(Root, 0.0) else Bone(ParentBone(i - 1), segmentWidth))
  }

  /** Number of parent links from joint `i` to its root. */
  function Depth(bones: seq<Bone>, i: nat): nat
    requires Chained(bones) && i < |bones|
    decreases i
  {
    match bones[i].parent
    case Root => 0
    case ParentBone(p) => 1 + Depth(bones, p)
  }

  /** Distance of joint `i` from its root along the page width: the sum of the
      offsets on the path back to the root. */
  function Reach(bones: seq<Bone>, i: nat): real
    requires Chained(bones) && i < |bones|
    decreases i
  {
    match bones[i].parent
    case Root => bones[i].offsetX
    case ParentBone(p) => bones[i].offsetX + Reach(bones, p)
  }

  /** The chain is linear: joint `i` is `i` links from the spine. */
  lemma {:induction false} ChainDepth(segments: nat, segmentWidth: real, i: nat)
    requires i <= segments
    ensures Depth(Chain(segments, segmentWidth), i) == i
  {
    if i > 0 {
      ChainDepth(segments, segmentWidth, i - 1);
    }
  }

  /** Joint `i` sits `i` segment widths from the spine. */
  lemma {:induction false} ChainReach(segments: nat, segmentWidth: real, i: nat)
    requires i <= segments
    ensures Reach(Chain(segments, segmentWidth), i) == i as real * segmentWidth
  {
    if i > 0 {
      var bones := Chain(segments, segmentWidth);
      ChainReach(segments, segmentWidth, i - 1);
      assert bones[i] == Bone(ParentBone(i - 1), segmentWidth);
      assert Reach(bones, i) == segmentWidth + Reach(bones, i - 1);
      assert (i - 1) as real * segmentWidth + segmentWidth == i as real * segmentWidth;
    }
  }

  /** The book's page chain has one joint per bone and its last joint lies
      exactly on the page's outer edge. */
  lemma PageChainSpansPage()
    ensures |Chain(PageSegments, SegmentWidth)| == BoneCount
    ensures Reach(Chain(PageSegments, SegmentWidth), PageSegments) == PageWidth
  {
    ChainReach(PageSegments, SegmentWidth, PageSegments);
  }
}

=== FILE: book.dfy ===
/** The book controller: the ordered pages, the page cursor and target, the
    keyboard and pointer handlers, and the per-frame update. */
module Book {
  import opened Numerics
  import opened Config
  import opened Cursor
  import opened Page

  datatype BookState = BookState(cursor: real, target: int, pages: seq<PageState>)

  /** The keys the book reacts to; every other key is `OtherKey`. */
  datatype Key = ArrowLeft | ArrowRight | OtherKey

  /** The nearest object under the crosshair: nothing, the tab carrying a page
      number, or the body of the page at a position of the page list. A body
      position outside the list stands for an object that is no page. */
  datatype Hit = NoHit | TabHit(pageNumber: int) | BodyHit(page: int)

  /** What the frame driver supplies: the wall clock in milliseconds and the
      seconds elapsed since the previous frame. */
  datatype Frame = Frame(now: int, delta: real)

  /** The shape every reachable book has. */
  predicate Valid(s: BookState) {
    && |s.pages| == PageCount
    && (forall i :: 0 <= i < |s.pages| ==> s.pages[i].number == i && |s.pages[i].joints| == BoneCount)
    && 0 <= s.target <= PageCount
    && 0.0 <= s.cursor <= PageCount as real
  }

  predicate AtMostOneHighlighted(s: BookState) {
    forall i, j :: 0 <= i < |s.pages| && 0 <= j < |s.pages| && s.pages[i].highlighted && s.pages[j].highlighted ==> i == j
  }

  /** Each page is open exactly when the cursor has passed its index. */
  predicate OpenedFollowsCursor(s: BookState) {
    forall i :: 0 <= i < |s.pages| ==> s.pages[i].isOpened == (s.cursor > i as real)
  }

  /** The book is closed when the cursor rests exactly on its first or last position. */
  predicate BookClosed(s: BookState)
    ensures BookClosed(s) && Valid(s) && OpenedFollowsCursor(s) ==>
              forall i, j :: 0 <= i < |s.pages| && 0 <= j < |s.pages| ==> s.pages[i].isOpened == s.pages[j].isOpened
  {
    s.cursor == 0.0 || s.cursor == PageCount as real
  }

  /** A new book: one fresh page per entry of the page list, cursor and target on 0. */
  function NewBook(): (s: BookState)
    ensures Valid(s) && AtMostOneHighlighted(s) && OpenedFollowsCursor(s)
    ensures s.cursor == 0.0 && s.target == 0
    ensures forall i :: 0 <= i < |s.pages| ==> !s.pages[i].highlighted && !s.pages[i].isOpened
  {
    BookState(0.0, 0, seq(|BookPages|, i requires 0 <= i < |BookPages| => NewPage(i, BookPages[i])))
  }

  /** Request a page: the target is clamped into range; the cursor moves later. */
  function SetPage(s: BookState, n: int): (r: BookState)
    ensures r.target == ClampPage(n)
    ensures r.cursor == s.cursor && r.pages == s.pages
    ensures Valid(s) ==> Valid(r)
  {
    s.(target := ClampPage(n))
  }

  function PressKey(s: BookState, key: Key): (r: BookState)
    ensures r.cursor == s.cursor && r.pages == s.pages
    ensures key.OtherKey? ==> r == s
    ensures !key.OtherKey? ==> 0 <= r.target <= PageCount
    ensures 0 <= s.target <= PageCount ==> Distance(r.target, s.target) <= 1
    ensures key.ArrowRight? && 0 <= s.target < PageCount ==> r.target == s.target + 1
    ensures key.ArrowRight? && s.target >= PageCount ==> r.target == PageCount
    ensures key.ArrowLeft? && 0 < s.target <= PageCount ==> r.target == s.target - 1
    ensures key.ArrowLeft? && s.target <= 0 ==> r.target == 0
    ensures Valid(s) ==> Valid(r)
  {
    match key
    case ArrowLeft => SetPage(s, if 0 < s.target - 1 then s.target - 1 else 0)
    case ArrowRight => SetPage(s, if PageCount < s.target + 1 then PageCount else s.target + 1)
    case OtherKey => s
  }

  /** Away from the ends, the two arrow keys undo each other. */
  lemma ArrowKeysUndoEachOther(s: BookState)
    requires Valid(s)
    ensures s.target < PageCount ==> PressKey(PressKey(s, ArrowRight), ArrowLeft) == s
    ensures s.target > 0 ==> PressKey(PressKey(s, ArrowLeft), ArrowRight) == s
  {
  }

  /** Pointer movement: every highlight is cleared, then the page the hit
      resolves to, if any, is highlighted. */
  function Hover(s: BookState, hit: Hit): (r: BookState)
    ensures r.cursor == s.cursor && r.target == s.target && |r.pages| == |s.pages|
    ensures forall i :: 0 <= i < |s.pages| ==> r.pages[i] == s.pages[i].(highlighted := r.pages[i].highlighted)
    ensures forall i :: 0 <= i < |s.pages| ==> (r.pages[i].highlighted <==> (hit == TabHit(i) || hit == BodyHit(i)))
    ensures AtMostOneHighlighted(r)
    ensures Valid(s) ==> Valid(r)
  {
    var cleared := seq(|s.pages|, i requires 0 <= i < |s.pages| => s.pages[i].(highlighted := false));
    var pages :=
      match hit
      case NoHit => cleared
      case TabHit(n) =>
        if 0 <= n < |cleared| then cleared[n := cleared[n].(highlighted := true)] else cleared
      case BodyHit(k) =>
        if 0 <= k < |cleared| then cleared[k := cleared[k].(highlighted := true)] else cleared;
    s.(pages := pages)
  }

  /** Pointer click: a tab opens through its page; a page body turns back if
      the page is open and turns over otherwise; anything else does nothing. */
  function Click(s: BookState, hit: Hit): (r: BookState)
    ensures r.cursor == s.cursor && r.pages == s.pages
    ensures hit.NoHit? ==> r == s
    ensures hit.TabHit? ==> r.target == ClampPage(hit.pageNumber + 1)
    ensures hit.BodyHit? && 0 <= hit.page < |s.pages| ==>
              var p := s.pages[hit.page];
              r.target == ClampPage(if p.isOpened then p.number else p.number + 1)
    ensures hit.BodyHit? && !(0 <= hit.page < |s.pages|) ==> r == s
    ensures Valid(s) ==> Valid(r)
  {
    match hit
    case NoHit => s
    case TabHit(n) => SetPage(s, n + 1)
    case BodyHit(k) =>
      if 0 <= k < |s.pages| then
        var p := s.pages[k];
        SetPage(s, if p.isOpened then p.number else p.number + 1)
      else s
  }

  /** One frame: the closed state is read from the cursor before it moves, the
      cursor eases one step, and every page is re-derived and updated. */
  function Tick(s: BookState, frame: Frame, trig: Trig): (r: BookState)
    ensures r.target == s.target
    ensures r.cursor == Step(s.cursor, s.target)
    ensures |r.pages| == |s.pages|
    ensures OpenedFollowsCursor(r)
    ensures forall i :: 0 <= i < |r.pages| ==>
              r.pages[i].tabVisible == (!BookClosed(s) && !r.pages[i].isOpened && r.pages[i].number > 0)
    ensures forall i :: 0 <= i < |r.pages| ==> r.pages[i].wasOpened == r.pages[i].isOpened
    ensures forall i :: 0 <= i < |r.pages| ==>
              && r.pages[i].highlighted == s.pages[i].highlighted
              && r.pages[i].number == s.pages[i].number
              && |r.pages[i].joints| == |s.pages[i].joints|
    ensures Valid(s) ==> Valid(r)
  {
    var bookClosed := BookClosed(s);
    var cursor := Step(s.cursor, s.target);
    var pages := seq(|s.pages|, i requires 0 <= i < |s.pages| =>
                       UpdatePage(s.pages[i].(isOpened := cursor > i as real), frame.delta, bookClosed, frame.now, trig));
    BookState(cursor, s.target, pages)
  }

  /** In a frame, every joint of every page takes one damping step toward the
      target computed from the page's new open flag, the turn start after
      flip detection, and the closed flag read before the cursor moved. */
  lemma TickJoints(s: BookState, frame: Frame, trig: Trig, k: nat, i: nat)
    requires k < |s.pages| && i < |s.pages[k].joints|
    ensures var r := Tick(s, frame, trig);
            && k < |r.pages| && i < |r.pages[k].joints|
            && r.pages[k].joints[i] ==
                 DampJoint(s.pages[k].joints[i],
                           JointTargets(i, |s.pages[k].joints|, r.pages[k].isOpened, BookClosed(s), s.pages[k].number,
                                        TurnProgress(frame.now, r.pages[k].turnedAt, trig), trig),
                           frame.delta, trig)
  {
    var r := Tick(s, frame, trig);
    var p := s.pages[k].(isOpened := r.cursor > k as real);
    assert r.pages[k] == UpdatePage(p, frame.delta, BookClosed(s), frame.now, trig);
  }

  /** In a frame of positive length every joint that is off its target
      strictly closes its distance to it on that axis. */
  lemma TickDrivesJoints(s: BookState, frame: Frame, trig: Trig, k: nat, i: nat)
    requires ExpDecaysStrictly(trig) && frame.delta > 0.0
    requires k < |s.pages| && i < |s.pages[k].joints|
    ensures var r := Tick(s, frame, trig);
            var before := s.pages[k].joints[i];
            var target := JointTargets(i, |s.pages[k].joints|, r.pages[k].isOpened, BookClosed(s), s.pages[k].number,
                                       TurnProgress(frame.now, r.pages[k].turnedAt, trig), trig);
            && (before.rotY != target.rotY ==> Abs(target.rotY - r.pages[k].joints[i].rotY) < Abs(target.rotY - before.rotY))
            && (before.rotX != target.rotX ==> Abs(target.rotX - r.pages[k].joints[i].rotX) < Abs(target.rotX - before.rotX))
  {
    var r := Tick(s, frame, trig);
    var p := s.pages[k].(isOpened := r.cursor > k as real);
    assert r.pages[k] == UpdatePage(p, frame.delta, BookClosed(s), frame.now, trig);
    JointsCloseGap(p, frame.delta, BookClosed(s), frame.now, trig, i);
  }

  /** The closed test reads the cursor before it moves: on the first frame
      after a closed book is sent forward, page 0 is already open, yet the
      frame still runs as a closed book. No tab shows, and every joint is
      damped toward the closed pose: joint 0 toward lying flat on the page's
      new side, every other joint toward no bend and no fold. */
  lemma FirstOpeningFrameStillClosed(s: BookState, frame: Frame, trig: Trig)
    requires Valid(s) && s.cursor == 0.0 && s.target > 0
    ensures var r := Tick(s, frame, trig);
            && r.cursor > 0.0
            && r.pages[0].isOpened
            && (forall i :: 0 <= i < |r.pages| ==> !r.pages[i].tabVisible)
            && forall k, i :: 0 <= k < |r.pages| && 0 <= i < |s.pages[k].joints| ==>
                 r.pages[k].joints[i] ==
                   DampJoint(s.pages[k].joints[i],
                             Joint(if i == 0 then FlatRotation(r.pages[k].isOpened, trig) else 0.0, 0.0),
                             frame.delta, trig)
  {
    var r := Tick(s, frame, trig);
    assert BookClosed(s);
    assert r.cursor != 0.0;
    forall k, i | 0 <= k < |r.pages| && 0 <= i < |s.pages[k].joints|
      ensures r.pages[k].joints[i] ==
                DampJoint(s.pages[k].joints[i],
                          Joint(if i == 0 then FlatRotation(r.pages[k].isOpened, trig) else 0.0, 0.0),
                          frame.delta, trig)
    {
      TickJoints(s, frame, trig, k, i);
    }
  }

  /** A closed book whose cursor rests on its target and whose pages all lie
      exactly flat stays as it is through a frame: no joint of any page moves.
      This describes the fixed point only; damping never lands a page on it
      exactly, so it is not a state a new book reaches. */
  lemma SettledClosedBookIsStill(s: BookState, frame: Frame, trig: Trig)
    requires BookClosed(s) && s.cursor == s.target as real && OpenedFollowsCursor(s)
    requires forall i :: 0 <= i < |s.pages| ==> RestingClosed(s.pages[i], trig)
    ensures var r := Tick(s, frame, trig);
            forall i :: 0 <= i < |r.pages| ==> r.pages[i].joints == s.pages[i].joints
  {
    var r := Tick(s, frame, trig);
    forall i | 0 <= i < |r.pages|
      ensures r.pages[i].joints == s.pages[i].joints
    {
      var p := s.pages[i].(isOpened := r.cursor > i as real);
      assert p == s.pages[i];
      ClosedPageStaysRigid(p, frame.delta, frame.now, trig);
    }
  }

  /** The book after a run of frames with no input in between. */
  function Run(s: BookState, frames: seq<Frame>, trig: Trig): BookState
    decreases |frames|
  {
    if |frames| == 0 then s else Run(Tick(s, frames[0], trig), frames[1..], trig)
  }

  /** A run of frames moves the cursor exactly as easing does, keeps the
      target, keeps the book valid, and leaves every page's open flag
      following the cursor. */
  lemma {:induction false} RunEases(s: BookState, frames: seq<Frame>, trig: Trig)
    ensures var r := Run(s, frames, trig);
            && r.cursor == Ease(s.cursor, s.target, |frames|)
            && r.target == s.target
            && |r.pages| == |s.pages|
            && (Valid(s) ==> Valid(r))
            && (|frames| > 0 ==> OpenedFollowsCursor(r))
    decreases |frames|
  {
    if |frames| > 0 {
      RunEases(Tick(s, frames[0], trig), frames[1..], trig);
    }
  }

  /** With the target held, enough frames put the cursor exactly on the
      target page: the pages before it are open and the others closed. */
  lemma RunSettles(s: BookState, frames: seq<Frame>, trig: Trig)
    requires |frames| > 0 && |frames| >= FramesToSettle(s.cursor, s.target)
    ensures var r := Run(s, frames, trig);
            && r.cursor == s.target as real
            && forall i :: 0 <= i < |r.pages| ==> (r.pages[i].isOpened <==> i < s.target)
  {
    RunEases(s, frames, trig);
    EaseSettles(s.cursor, s.target, |frames|);
  }

  /** Clicking the body of a page and letting the book settle flips that page:
      an open page turns back, a closed one turns over. */
  lemma ClickBodyFlipsPage(s: BookState, k: int, frames: seq<Frame>, trig: Trig)
    requires Valid(s) && 0 <= k < PageCount
    requires var c := Click(s, BodyHit(k));
             |frames| > 0 && |frames| >= FramesToSettle(c.cursor, c.target)
    ensures var r := Run(Click(s, BodyHit(k)), frames, trig);
            k < |r.pages| && r.pages[k].isOpened == !s.pages[k].isOpened
  {
    var c := Click(s, BodyHit(k));
    RunSettles(c, frames, trig);
    RunEases(c, frames, trig);
  }

  /** Clicking the tab of a page and letting the book settle leaves that page
      and every page before it open, and every later page closed. */
  lemma ClickTabOpensThrough(s: BookState, n: int, frames: seq<Frame>, trig: Trig)
    requires Valid(s) && 0 <= n < PageCount
    requires var c := Click(s, TabHit(n));
             |frames| > 0 && |frames| >= FramesToSettle(c.cursor, c.target)
    ensures var r := Run(Click(s, TabHit(n)), frames, trig);
            forall i :: 0 <= i < |r.pages| ==> (r.pages[i].isOpened <==> i <= n)
  {
    RunSettles(Click(s, TabHit(n)), frames, trig);
  }

  /** Opening a new book at page 3: the cursor lands exactly on 3, pages 0 to
      2 are open and pages 3 to 9 closed. */
  lemma OpenNewBookAtThree(frames: seq<Frame>, trig: Trig)
    requires |frames| >= FramesToSettle(0.0, 3) && |frames| > 0
    ensures var r := Run(SetPage(NewBook(), 3), frames, trig);
            && r.cursor == 3.0
            && |r.pages| == 10
            && (forall i :: 0 <= i < 3 ==> r.pages[i].isOpened)
            && (forall i :: 3 <= i < 10 ==> !r.pages[i].isOpened)
  {
    RunSettles(SetPage(NewBook(), 3), frames, trig);
    RunEases(SetPage(NewBook(), 3), frames, trig);
  }

  /** Everything that can happen to the book. */
  datatype Event = KeyDown(key: Key) | PointerMove(hit: Hit) | PointerClick(hit: Hit) | FrameTick(frame: Frame)

  function Apply(s: BookState, e: Event, trig: Trig): BookState {
    match e
    case KeyDown(key) => PressKey(s, key)
    case PointerMove(hit) => Hover(s, hit)
    case PointerClick(hit) => Click(s, hit)
    case FrameTick(frame) => Tick(s, frame, trig)
  }

  function ApplyAll(s: BookState, events: seq<Event>, trig: Trig): BookState
    decreases |events|
  {
    if |events| == 0 then s else ApplyAll(Apply(s, events[0], trig), events[1..], trig)
  }

  /** Whatever the events, the target and the cursor stay within the book and
      at most one page is highlighted. */
  lemma {:induction false} EventsKeepInvariants(s: BookState, events: seq<Event>, trig: Trig)
    requires Valid(s) && AtMostOneHighlighted(s)
    ensures var r := ApplyAll(s, events, trig);
            Valid(r) && AtMostOneHighlighted(r)
    decreases |events|
  {
    if |events| > 0 {
      var s' := Apply(s, events[0], trig);
      assert Valid(s') && AtMostOneHighlighted(s');
      EventsKeepInvariants(s', events[1..], trig);
    }
  }

  /** Whatever the events, every page's open flag follows the cursor:
      keys, hover and clicks move neither, and a frame re-derives the flags
      from the cursor it has just moved. */
  lemma {:induction false} EventsKeepOpened(s: BookState, events: seq<Event>, trig: Trig)
    requires OpenedFollowsCursor(s)
    ensures OpenedFollowsCursor(ApplyAll(s, events, trig))
    decreases |events|
  {
    if |events| > 0 {
      var s' := Apply(s, events[0], trig);
      assert OpenedFollowsCursor(s');
      EventsKeepOpened(s', events[1..], trig);
    }
  }

  /** From a new book, whatever the events, the target and the cursor stay
      within the book, at most one page is highlighted, and a page is open
      exactly when the cursor lies past its index. */
  lemma NewBookKeepsInvariants(events: seq<Event>, trig: Trig)
    ensures var r := ApplyAll(NewBook(), events, trig);
            && 0 <= r.target <= PageCount
            && 0.0 <= r.cursor <= PageCount as real
            && AtMostOneHighlighted(r)
            && OpenedFollowsCursor(r)
  {
    EventsKeepInvariants(NewBook(), events, trig);
    EventsKeepOpened(NewBook(), events, trig);
  }
}

=== FILE: config.dfy ===
/** Constants of the book: the page list and the animation tuning values. */
module Config {

  /** The two texture labels a page shows on its front and back faces. */
  datatype PageLabels = PageLabels(front: string, back: string)

  /** The book's pages, in order; their number fixes the page count. */
  const BookPages: seq<PageLabels> := [
    PageLabels("book-cover", "book-back"),
    PageLabels("DSC00680", "DSC00933"),
    PageLabels("DSC00966", "DSC00983"),
    PageLabels("DSC00993", "DSC01011"),
    PageLabels("DSC01040", "DSC01064"),
    PageLabels("DSC01071", "DSC01103"),
    PageLabels("DSC01145", "DSC01420"),
    PageLabels("DSC01461", "DSC01489"),
    PageLabels("DSC02031", "DSC02064"),
    PageLabels("DSC02069", "book-back")
  ]

  /** The number of pages; also the largest value the page target may take. */
  const PageCount: nat := |BookPages|

  /** Geometry of one page: its width and the number of bend segments across it. */
  const PageWidth: real := 1.28
  const PageSegments: nat := 30
  const SegmentWidth: real := PageWidth / PageSegments as real

  /** A chain of `PageSegments` segments has one more joint than segments. */
  const BoneCount: nat := PageSegments + 1

  /** Damping factors of the primary bend (y) and of the trailing fold (x). */
  const EasingFactor: real := 0.8
  const EasingFactorFold: real := 0.6

  /** Weights of the three curve contributions to a joint's bend. */
  const InsideCurveStrength: real := 0.05
  const OutsideCurveStrength: real := 0.02
  const TurningCurveStrength: real := 0.03

  /** Joints below this index take the inside curve, the others the outside curve. */
  const CurveSplitJoint: nat := 8
  /** Only joints above this index take part in the fold. */
  const FoldStartJoint: nat := 8

  /** Length in milliseconds of the window over which a turn's progress rises and falls. */
  const TurnWindowMs: int := 200
  /** Below this turn progress an open page settles flat instead of curving. */
  const SettleThreshold: real := 0.05

  /** Per-page splay of open pages, and the fold angle, in degrees. */
  const FanOutDegrees: real := 0.2
  const FoldDegrees: real := 2.0

  /** Cursor easing: the slow and fast step fractions, the gap above which the
      fast one is used, and the distance under which the cursor snaps. */
  const SlowStep: real := 0.03
  const FastStep: real := 0.05
  const FastGap: real := 2.0
  const SnapDistance: real := 0.01
}

=== FILE: cursor.dfy ===
/** The book's page cursor: a discrete target page chosen by input, and a
    real-valued cursor that eases toward it once per frame. */
module Cursor {
  import opened Numerics
  import opened Config

  /** Clamping of a requested page into [0, PageCount]; the page target is
      always stored through this function. */
  function ClampPage(n: int): (r: int)
    ensures 0 <= r <= PageCount
    ensures 0 <= n <= PageCount ==> r == n
    ensures n < 0 ==> r == 0
    ensures n > PageCount ==> r == PageCount
  {
    if n < 0 then 0 else if n > PageCount then PageCount else n
  }

  function Distance(a: int, b: int): nat {
    if a <= b then b - a else a - b
  }

  /** The clamped page is the in-range page nearest to the request. */
  lemma ClampIsNearest(n: int, k: int)
    requires 0 <= k <= PageCount
    ensures Distance(ClampPage(n), n) <= Distance(k, n)
  {
  }

  /** The easing fraction for a remaining gap: fast for long jumps. */
  function StepFraction(gap: real): real {
    if gap > FastGap then FastStep else SlowStep
  }

  /** The distance still to travel from cursor `c` to target `t`. */
  function Gap(c: real, t: int): real {
    Abs(t as real - c)
  }

  /** One frame of cursor easing toward the target, with the snap to the
      target once the cursor is within `SnapDistance` of it. */
  function Step(c: real, t: int): (r: real)
    ensures c == t as real ==> r == c
    ensures Between(c, r, t as real)
    ensures r != t as real ==> Gap(r, t) == (1.0 - StepFraction(Gap(c, t))) * Gap(c, t)
    ensures r == t as real <==> (c == t as real || (1.0 - StepFraction(Gap(c, t))) * Gap(c, t) < SnapDistance)
    ensures Gap(r, t) <= (1.0 - SlowStep) * Gap(c, t)
  {
    var target := t as real;
    if c == target then c
    else
      var diff := target - c;
      var step := if Abs(diff) > FastGap then FastStep else SlowStep;
      var next := Lerp(c, target, step);
      if Abs(next - target) < SnapDistance then target else next
  }

  /** The cursor after `n` frames with the target held at `t`. */
  function Ease(c: real, t: int, n: nat): real
    decreases n
  {
    if n == 0 then c else Ease(Step(c, t), t, n - 1)
  }

  /** A measure that every frame lowers while the cursor is off target: each
      frame that does not snap removes at least 0.0003 of the gap. */
  function Measure(c: real, t: int): nat {
    if c == t as real then 0 else 1 + (Gap(c, t) * 10000.0 / 3.0).Floor
  }

  lemma StepLowersMeasure(c: real, t: int)
    requires c != t as real
    ensures Measure(Step(c, t), t) < Measure(c, t)
  {
    var r := Step(c, t);
    if r != t as real {
      var g, g' := Gap(c, t), Gap(r, t);
      assert g' >= SnapDistance;
      assert g' == (1.0 - StepFraction(g)) * g;
      assert g - g' == StepFraction(g) * g;
      assert StepFraction(g) * g >= SlowStep * g;
      assert g >= g';
      assert g - g' >= 0.0003;
      var x, x' := g * 10000.0 / 3.0, g' * 10000.0 / 3.0;
      assert x' <= x - 1.0;
      assert x'.Floor as real <= x' && x < x.Floor as real + 1.0;
    }
  }

  /** The exact number of frames after which the cursor sits on the target. */
  function FramesToSettle(c: real, t: int): nat
    decreases Measure(c, t)
  {
    if c == t as real then 0
    else
      StepLowersMeasure(c, t);
      1 + FramesToSettle(Step(c, t), t)
  }

  /** Once on target, the cursor stays there. */
  lemma {:induction false} EaseAtTarget(t: int, n: nat)
    ensures Ease(t as real, t, n) == t as real
  {
    if n > 0 {
      EaseAtTarget(t, n - 1);
    }
  }

  /** With the target held fixed, the cursor is exactly on it after
      `FramesToSettle` frames and every frame after that. */
  lemma {:induction false} EaseSettles(c: real, t: int, n: nat)
    requires n >= FramesToSettle(c, t)
    ensures Ease(c, t, n) == t as real
    decreases Measure(c, t)
  {
    if c == t as real {
      EaseAtTarget(t, n);
    } else {
      StepLowersMeasure(c, t);
      EaseSettles(Step(c, t), t, n - 1);
    }
  }

  /** ... and not one frame earlier. */
  lemma {:induction false} EaseNotSettledEarly(c: real, t: int, n: nat)
    requires n < FramesToSettle(c, t)
    ensures Ease(c, t, n) != t as real
    decreases Measure(c, t)
  {
    if n > 0 {
      StepLowersMeasure(c, t);
      EaseNotSettledEarly(Step(c, t), t, n - 1);
    }
  }

  /** Easing never leaves the segment between the start and the target, so a
      cursor that starts in [0, PageCount] stays there. */
  lemma {:induction false} EaseStaysBetween(c: real, t: int, n: nat)
    ensures Between(c, Ease(c, t, n), t as real)
    decreases n
  {
    if n > 0 {
      var c' := Step(c, t);
      EaseStaysBetween(c', t, n - 1);
    }
  }

  lemma EaseInRange(c: real, t: int, n: nat)
    requires 0.0 <= c <= PageCount as real
    requires 0 <= t <= PageCount
    ensures 0.0 <= Ease(c, t, n) <= PageCount as real
  {
    EaseStaysBetween(c, t, n);
  }

  /** A gap `g` after `n` contractions by the slow step's factor 0.97. */
  function Contracted(g: real, n: nat): real
    decreases n
  {
    if n == 0 then g else Contracted((1.0 - SlowStep) * g, n - 1)
  }

  lemma {:induction false} ContractedMonotone(a: real, b: real, n: nat)
    requires a <= b
    ensures Contracted(a, n) <= Contracted(b, n)
    decreases n
  {
    if n > 0 {
      ContractedMonotone((1.0 - SlowStep) * a, (1.0 - SlowStep) * b, n - 1);
    }
  }

  /** The gap shrinks at least geometrically, by the factor 0.97 per frame. */
  lemma {:induction false} EaseContracts(c: real, t: int, n: nat)
    ensures Gap(Ease(c, t, n), t) <= Contracted(Gap(c, t), n)
    decreases n
  {
    if n > 0 {
      var c' := Step(c, t);
      EaseContracts(c', t, n - 1);
      ContractedMonotone(Gap(c', t), (1.0 - SlowStep) * Gap(c, t), n - 1);
    }
  }

  /** The settle time is bounded by the measure: at most one frame per
      0.0003 of initial gap, plus the snapping frame. */
  lemma {:induction false} SettleBound(c: real, t: int)
    ensures FramesToSettle(c, t) <= Measure(c, t)
    decreases Measure(c, t)
  {
    if c != t as real {
      StepLowersMeasure(c, t);
      SettleBound(Step(c, t), t);
    }
  }

  /** From anywhere in the book to any page takes at most 33334 frames. */
  lemma SettleBoundInBook(c: real, t: int)
    requires 0.0 <= c <= PageCount as real
    requires 0 <= t <= PageCount
    ensures FramesToSettle(c, t) <= 33334
  {
    SettleBound(c, t);
    assert Gap(c, t) <= 10.0;
    assert Gap(c, t) * 10000.0 / 3.0 < 33334.0;
  }
}

=== FILE: numerics.dfy ===
/** Real-number helpers shared by the cursor and the page solver. The
    transcendental functions of the runtime are not defined here: they are
    fields of a `Trig` record that every caller passes in, so no proof may
    depend on their values. */
module Numerics {

  /** The runtime's `Math.sin`, `Math.cos`, `Math.exp` and `Math.PI`, uninterpreted. */
  datatype Trig = Trig(sin: real -> real, cos: real -> real, exp: real -> real, pi: real)

  /** `x` lies on the closed segment between `a` and `b`, whichever is larger. */
  predicate Between(a: real, x: real, b: real) {
    (a <= b && a <= x <= b) || (b <= a && b <= x <= a)
  }

  function Abs(x: real): (r: real)
    ensures r >= 0.0
    ensures r == x || r == -x
  {
    if x < 0.0 then -x else x
  }

  /** The runtime's `Math.sign` on a number that is not NaN. */
  function Sign(x: real): (r: real)
    ensures r == 1.0 || r == 0.0 || r == -1.0
    ensures r * x == Abs(x)
    ensures r == 0.0 <==> x == 0.0
  {
    if x > 0.0 then 1.0 else if x < 0.0 then -1.0 else 0.0
  }

  /** Linear interpolation from `a` toward `b` by the fraction `f`. */
  function Lerp(a: real, b: real, f: real): (r: real)
    ensures f == 0.0 ==> r == a
    ensures f == 1.0 ==> r == b
    ensures b - r == (1.0 - f) * (b - a)
    ensures 0.0 <= f <= 1.0 ==> Between(a, r, b)
  {
    FractionOfDistance(b - a, f);
    a + (b - a) * f
  }

  /** Covering the fraction `f` of a distance leaves `1 - f` of it, and a
      fraction in [0, 1] of a distance lies between zero and that distance. */
  lemma FractionOfDistance(d: real, f: real)
    ensures d - d * f == (1.0 - f) * d
    ensures 0.0 <= f <= 1.0 && d >= 0.0 ==> 0.0 <= d * f <= d
    ensures 0.0 <= f <= 1.0 && d <= 0.0 ==> d <= d * f <= 0.0
  {
    if 0.0 <= f <= 1.0 {
      if d >= 0.0 {
        assert d * f <= d * 1.0;
      } else {
        assert d * f >= d * 1.0;
      }
    }
  }

  function DegToRad(degrees: real, trig: Trig): (r: real)
    ensures r * 180.0 == degrees * trig.pi
  {
    degrees * trig.pi / 180.0
  }

  /** The fraction of the remaining distance that one damping call removes:
      one minus the decay `exp(-factor * delta * 60)` of a 60 Hz frame. */
  function DampFraction(factor: real, delta: real, trig: Trig): real {
    1.0 - trig.exp(-factor * delta * 60.0)
  }

  /** Frame-rate independent exponential damping of an angle toward a target. */
  function DampAngle(current: real, target: real, factor: real, delta: real, trig: Trig): (r: real)
    ensures current == target ==> r == current
    ensures r == Lerp(current, target, DampFraction(factor, delta, trig))
  {
    var diff := target - current;
    var dampedDiff := diff * (1.0 - trig.exp(-factor * delta * 60.0));
    current + dampedDiff
  }

  /** The decay the runtime's `exp` gives for a non-positive exponent lies in (0, 1]. */
  ghost predicate ExpDecays(trig: Trig) {
    forall x: real :: x <= 0.0 ==> 0.0 < trig.exp(x) <= 1.0
  }

  /** With a decaying `exp`, a non-negative factor and a non-negative frame
      time, damping never overshoots: the new angle stays between the old
      one and the target. */
  lemma DampNoOvershoot(current: real, target: real, factor: real, delta: real, trig: Trig)
    requires ExpDecays(trig)
    requires factor >= 0.0 && delta >= 0.0
    ensures Between(current, DampAngle(current, target, factor, delta, trig), target)
  {
    var x := -factor * delta * 60.0;
    assert x <= 0.0 by {
      assert factor * delta >= 0.0;
    }
    assert 0.0 < trig.exp(x) <= 1.0;
    assert 0.0 <= DampFraction(factor, delta, trig) < 1.0;
  }

  /** For a negative exponent the runtime's `exp` lies strictly inside (0, 1). */
  ghost predicate ExpDecaysStrictly(trig: Trig) {
    forall x: real :: x < 0.0 ==> 0.0 < trig.exp(x) < 1.0
  }

  /** The runtime's `exp` is monotone. */
  ghost predicate ExpMonotone(trig: Trig) {
    forall x: real, y: real :: x <= y ==> trig.exp(x) <= trig.exp(y)
  }

  /** Scaling a non-zero distance by a factor strictly inside (0, 1) shortens it. */
  lemma ShrinkStrict(e: real, d: real)
    requires 0.0 < e < 1.0 && d != 0.0
    ensures Abs(e * d) < Abs(d)
  {
    if d > 0.0 {
      assert e * d < 1.0 * d;
    } else {
      assert e * (-d) < 1.0 * (-d);
    }
  }

  /** With a strictly decaying `exp`, a positive factor and a positive frame
      time, an angle that is off target strictly closes its distance to it. */
  lemma DampCloses(current: real, target: real, factor: real, delta: real, trig: Trig)
    requires ExpDecaysStrictly(trig)
    requires factor > 0.0 && delta > 0.0
    ensures current != target ==>
              Abs(target - DampAngle(current, target, factor, delta, trig)) < Abs(target - current)
  {
    var x := -factor * delta * 60.0;
    assert x < 0.0 by {
      assert factor * delta > 0.0;
    }
    var e := trig.exp(x);
    assert 0.0 < e < 1.0;
    assert 1.0 - DampFraction(factor, delta, trig) == e;
    if current != target {
      ShrinkStrict(e, target - current);
    }
  }

  /** With a monotone `exp` and a non-negative frame time, a smaller damping
      factor never closes more of the distance in one frame than a larger one. */
  lemma SlowerFactorLags(slow: real, fast: real, delta: real, trig: Trig)
    requires ExpMonotone(trig)
    requires 0.0 <= slow <= fast && delta >= 0.0
    ensures DampFraction(slow, delta, trig) <= DampFraction(fast, delta, trig)
  {
    assert slow * delta <= fast * delta;
    assert trig.exp(-fast * delta * 60.0) <= trig.exp(-slow * delta * 60.0);
  }
}

=== FILE: page.dfy ===
/** One page of the book: its open/turn state, its tab, and the per-joint
    solver that bends the page while it turns. */
module Page {
  import opened Numerics
  import opened Config
  import opened BoneChain

  /** A joint's rotation about the page's y axis (the bend) and x axis (the
      fold). Joint 0 stands for the rotation of the page as a whole. */
  datatype Joint = Joint(rotY: real, rotX: real)

  datatype PageState = PageState(
    number: nat,
    front: string,
    back: string,
    isOpened: bool,
    wasOpened: bool,
    turnedAt: int,
    highlighted: bool,
    tabVisible: bool,
    joints: seq<Joint>)

  /** A freshly built page: closed, last flipped at time 0, not highlighted,
      with its tab shown, and unbent. */
  function NewPage(number: nat, labels: PageLabels): (p: PageState)
    ensures p.number == number && p.front == labels.front && p.back == labels.back
    ensures !p.isOpened && !p.wasOpened && !p.highlighted
    ensures p.turnedAt == 0 && p.tabVisible
    ensures |p.joints| == BoneCount == |Chain(PageSegments, SegmentWidth)|
    ensures forall i :: 0 <= i < |p.joints| ==> p.joints[i] == Joint(0.0, 0.0)
  {
    PageState(number, labels.front, labels.back, false, false, 0, false, true,
              seq(BoneCount, _ => Joint(0.0, 0.0)))
  }

  /** The fraction of the turn window elapsed since the last flip, capped at 1. */
  function TurnFraction(now: int, turnedAt: int): (f: real)
    ensures f <= 1.0
    ensures now - turnedAt >= TurnWindowMs ==> f == 1.0
    ensures now >= turnedAt ==> 0.0 <= f
    ensures now - turnedAt <= TurnWindowMs ==> f * TurnWindowMs as real == (now - turnedAt) as real
  {
    var elapsed := if TurnWindowMs < now - turnedAt then TurnWindowMs else now - turnedAt;
    elapsed as real / TurnWindowMs as real
  }

  /** The eased turn progress: a half sine over the turn window. */
  function TurnProgress(now: int, turnedAt: int, trig: Trig): (r: real)
    ensures now == turnedAt ==> r == trig.sin(0.0)
    ensures now - turnedAt >= TurnWindowMs ==> r == trig.sin(trig.pi)
  {
    trig.sin(TurnFraction(now, turnedAt) * trig.pi)
  }

  /** The rotation of a page lying flat on its side of the book. */
  function FlatRotation(isOpened: bool, trig: Trig): (r: real)
    ensures Abs(r) * 2.0 == Abs(trig.pi)
    ensures trig.pi > 0.0 ==> (r < 0.0 <==> isOpened)
  {
    if isOpened then -trig.pi / 2.0 else trig.pi / 2.0
  }

  /** The rotation a page turns toward: flat on its side, splayed by its
      number when the book is open. Its sign says which way the page turns. */
  function TargetRotation(isOpened: bool, bookClosed: bool, number: nat, trig: Trig): (theta: real)
    ensures bookClosed ==> theta == FlatRotation(isOpened, trig)
    ensures trig.pi > 0.0 ==> theta >= FlatRotation(isOpened, trig)
    ensures !bookClosed ==> (theta - FlatRotation(isOpened, trig)) * 180.0 == number as real * FanOutDegrees * trig.pi
    ensures trig.pi > 0.0 && number < 450 ==> theta != 0.0 && (theta < 0.0 <==> isOpened)
  {
    var flat := FlatRotation(isOpened, trig);
    if bookClosed then flat
    else
      FanOutBelowQuarterTurn(number, trig);
      flat + DegToRad(number as real * FanOutDegrees, trig)
  }

  /** For fewer than 450 pages the splay of an open page stays below a
      quarter turn, so it never flips the direction a page turns. */
  lemma FanOutBelowQuarterTurn(number: nat, trig: Trig)
    ensures trig.pi > 0.0 && number < 450 ==>
              0.0 <= DegToRad(number as real * FanOutDegrees, trig) < trig.pi / 2.0
  {
    if trig.pi > 0.0 && number < 450 {
      var d := number as real * FanOutDegrees;
      assert 0.0 <= d < 90.0;
      assert d * trig.pi < 90.0 * trig.pi;
      assert DegToRad(d, trig) == (d * trig.pi) / 180.0;
      assert (90.0 * trig.pi) / 180.0 == trig.pi / 2.0;
    }
  }

  /** In an open book a higher page number turns further: stacked open pages
      splay apart instead of overlapping. */
  lemma OpenPagesSplay(isOpened: bool, n: nat, m: nat, trig: Trig)
    requires trig.pi > 0.0 && n < m
    ensures TargetRotation(isOpened, false, n, trig) < TargetRotation(isOpened, false, m, trig)
  {
    var dn, dm := n as real * FanOutDegrees, m as real * FanOutDegrees;
    assert dn < dm;
    assert dn * trig.pi < dm * trig.pi;
    assert DegToRad(dn, trig) * 180.0 < DegToRad(dm, trig) * 180.0;
  }

  /** The inside curve, on the joints near the spine only. */
  function InsideCurve(i: nat, trig: Trig): (r: real)
    ensures i >= CurveSplitJoint ==> r == 0.0
  {
    if i < CurveSplitJoint then trig.sin(i as real * 0.2 + 0.25) else 0.0
  }

  /** The outside curve, on the joints near the outer edge only. */
  function OutsideCurve(i: nat, trig: Trig): (r: real)
    ensures i < CurveSplitJoint ==> r == 0.0
  {
    if i >= CurveSplitJoint then trig.cos(i as real * 0.3 + 0.09) else 0.0
  }

  /** A bell over the whole chain, scaled by turn progress. */
  function TurningCurve(i: nat, boneCount: nat, progress: real, trig: Trig): (r: real)
    requires i < boneCount
    ensures progress == 0.0 ==> r == 0.0
  {
    trig.sin(i as real * trig.pi * (1.0 / boneCount as real)) * progress
  }

  /** The weighted sum of the three curves: the bend per unit of target rotation. */
  function BendProfile(i: nat, boneCount: nat, progress: real, trig: Trig): (r: real)
    requires i < boneCount
    ensures i < CurveSplitJoint ==>
              r == InsideCurveStrength * InsideCurve(i, trig) + TurningCurveStrength * TurningCurve(i, boneCount, progress, trig)
    ensures i >= CurveSplitJoint ==>
              r == TurningCurveStrength * TurningCurve(i, boneCount, progress, trig) - OutsideCurveStrength * OutsideCurve(i, trig)
  {
    InsideCurveStrength * InsideCurve(i, trig)
    - OutsideCurveStrength * OutsideCurve(i, trig)
    + TurningCurveStrength * TurningCurve(i, boneCount, progress, trig)
  }

  /** The fold intensity: a bell over the trailing half of the chain only. */
  function FoldProfile(i: nat, boneCount: nat, progress: real, trig: Trig): (f: real)
    requires i < boneCount
    ensures i <= FoldStartJoint ==> f == 0.0
  {
    if i > FoldStartJoint then trig.sin(i as real * trig.pi * (1.0 / boneCount as real) - 0.5) * progress
    else 0.0
  }

  /** The rotation joint `i` of a chain of `boneCount` joints is driven toward
      this frame: `rotY` the bend, `rotX` the fold. */
  function JointTargets(i: nat, boneCount: nat, isOpened: bool, bookClosed: bool, number: nat,
                        progress: real, trig: Trig): (r: Joint)
    requires i < boneCount
    ensures (bookClosed || progress < SettleThreshold) ==>
              r.rotX == 0.0 && r.rotY == (if i == 0 then FlatRotation(isOpened, trig) else 0.0)
    ensures r.rotX != 0.0 ==> i > FoldStartJoint && !bookClosed && progress >= SettleThreshold
    ensures !bookClosed && progress >= SettleThreshold ==>
              var theta := TargetRotation(isOpened, bookClosed, number, trig);
              r.rotY == theta * BendProfile(i, boneCount, progress, trig) &&
              r.rotX == DegToRad(Sign(theta) * FoldDegrees, trig) * FoldProfile(i, boneCount, progress, trig)
  {
    var theta := TargetRotation(isOpened, bookClosed, number, trig);
    if bookClosed then
      Joint(if i == 0 then theta else 0.0, 0.0)
    else if progress < SettleThreshold then
      Joint(if i == 0 then FlatRotation(isOpened, trig) else 0.0, 0.0)
    else
      var inside := InsideCurve(i, trig);
      var outside := OutsideCurve(i, trig);
      var turning := TurningCurve(i, boneCount, progress, trig);
      var rotation :=
        InsideCurveStrength * inside * theta -
        OutsideCurveStrength * outside * theta +
        TurningCurveStrength * turning * theta;
      var foldAngle := DegToRad(Sign(theta) * FoldDegrees, trig);
      assert rotation == theta * (InsideCurveStrength * inside - OutsideCurveStrength * outside + TurningCurveStrength * turning);
      Joint(rotation, foldAngle * FoldProfile(i, boneCount, progress, trig))
  }

  /** One damping step of a joint toward its target, the fold more slowly:
      what remains of each axis's distance to its target is the old distance
      scaled by the decay of that axis's factor over `delta`. */
  function DampJoint(j: Joint, target: Joint, delta: real, trig: Trig): (r: Joint)
    ensures j == target ==> r == j
    ensures target.rotY - r.rotY == (1.0 - DampFraction(EasingFactor, delta, trig)) * (target.rotY - j.rotY)
    ensures target.rotX - r.rotX == (1.0 - DampFraction(EasingFactorFold, delta, trig)) * (target.rotX - j.rotX)
  {
    Joint(DampAngle(j.rotY, target.rotY, EasingFactor, delta, trig),
          DampAngle(j.rotX, target.rotX, EasingFactorFold, delta, trig))
  }

  /** The turn start after this frame's flip detection. */
  function TurnStart(p: PageState, now: int): (t: int)
    ensures p.wasOpened == p.isOpened ==> t == p.turnedAt
    ensures p.wasOpened != p.isOpened ==> t == now
  {
    if p.wasOpened != p.isOpened then now else p.turnedAt
  }

  /** The target of joint `i` of page `p` in this frame. */
  function PageJointTarget(p: PageState, i: nat, bookClosed: bool, now: int, trig: Trig): Joint
    requires i < |p.joints|
  {
    JointTargets(i, |p.joints|, p.isOpened, bookClosed, p.number,
                 TurnProgress(now, TurnStart(p, now), trig), trig)
  }

  /** A page's per-frame update: tab visibility, flip detection, and one
      damping step of every joint toward its target. */
  function UpdatePage(p: PageState, delta: real, bookClosed: bool, now: int, trig: Trig): (r: PageState)
    ensures r.tabVisible <==> !bookClosed && !p.isOpened && p.number > 0
    ensures r.wasOpened == p.isOpened
    ensures p.wasOpened == p.isOpened ==> r.turnedAt == p.turnedAt
    ensures p.wasOpened != p.isOpened ==> r.turnedAt == now
    ensures |r.joints| == |p.joints|
    ensures r.(tabVisible := p.tabVisible, wasOpened := p.wasOpened, turnedAt := p.turnedAt, joints := p.joints) == p
  {
    var shouldShowTab := !bookClosed && !p.isOpened && p.number > 0;
    var joints := seq(|p.joints|, i requires 0 <= i < |p.joints| =>
                        DampJoint(p.joints[i], PageJointTarget(p, i, bookClosed, now, trig), delta, trig));
    p.(tabVisible := shouldShowTab, wasOpened := p.isOpened, turnedAt := TurnStart(p, now), joints := joints)
  }

  /** Every joint moves from where it was toward its target without passing it. */
  lemma JointsApproachTargets(p: PageState, delta: real, bookClosed: bool, now: int, trig: Trig, i: nat)
    requires ExpDecays(trig) && delta >= 0.0
    requires i < |p.joints|
    ensures var target := PageJointTarget(p, i, bookClosed, now, trig);
            var j := UpdatePage(p, delta, bookClosed, now, trig).joints[i];
            Between(p.joints[i].rotY, j.rotY, target.rotY) && Between(p.joints[i].rotX, j.rotX, target.rotX)
  {
    var target := PageJointTarget(p, i, bookClosed, now, trig);
    DampNoOvershoot(p.joints[i].rotY, target.rotY, EasingFactor, delta, trig);
    DampNoOvershoot(p.joints[i].rotX, target.rotX, EasingFactorFold, delta, trig);
  }

  /** In a frame of positive length every joint that is off its target
      strictly closes its distance to it, on each axis separately. */
  lemma JointsCloseGap(p: PageState, delta: real, bookClosed: bool, now: int, trig: Trig, i: nat)
    requires ExpDecaysStrictly(trig) && delta > 0.0
    requires i < |p.joints|
    ensures var target := PageJointTarget(p, i, bookClosed, now, trig);
            var before := p.joints[i];
            var j := UpdatePage(p, delta, bookClosed, now, trig).joints[i];
            && (before.rotY != target.rotY ==> Abs(target.rotY - j.rotY) < Abs(target.rotY - before.rotY))
            && (before.rotX != target.rotX ==> Abs(target.rotX - j.rotX) < Abs(target.rotX - before.rotX))
  {
    var target := PageJointTarget(p, i, bookClosed, now, trig);
    DampCloses(p.joints[i].rotY, target.rotY, EasingFactor, delta, trig);
    DampCloses(p.joints[i].rotX, target.rotX, EasingFactorFold, delta, trig);
  }

  /** The fold eases more slowly than the bend: in any frame it closes no
      larger share of its distance. */
  lemma FoldLagsBend(delta: real, trig: Trig)
    requires ExpMonotone(trig) && delta >= 0.0
    ensures DampFraction(EasingFactorFold, delta, trig) <= DampFraction(EasingFactor, delta, trig)
  {
    SlowerFactorLags(EasingFactorFold, EasingFactor, delta, trig);
  }

  /** A page resting flat on its side of a closed book: joint 0 at the flat
      rotation, every other joint unbent and unfolded. This is the fixed point
      of the closed-book targets; damping approaches it without ever landing
      on it exactly, and a new page (joint 0 at 0) does not start there. */
  predicate RestingClosed(p: PageState, trig: Trig) {
    && |p.joints| > 0
    && p.joints[0] == Joint(FlatRotation(p.isOpened, trig), 0.0)
    && forall i :: 0 < i < |p.joints| ==> p.joints[i] == Joint(0.0, 0.0)
  }

  /** The closed-book pose is a fixed point: a page already exactly at rest
      stays at rest, whatever the frame time and turn progress. It says
      nothing about how a page gets there; `JointTargets` states the pose a
      closed page is driven toward. */
  lemma ClosedPageStaysRigid(p: PageState, delta: real, now: int, trig: Trig)
    requires RestingClosed(p, trig)
    ensures UpdatePage(p, delta, true, now, trig).joints == p.joints
  {
    var r := UpdatePage(p, delta, true, now, trig);
    forall i | 0 <= i < |p.joints|
      ensures r.joints[i] == p.joints[i]
    {
      assert PageJointTarget(p, i, true, now, trig) == p.joints[i];
    }
  }
}
